=== FILE: README.md ===
# Tricks-generator core, modelled in Dafny

A model of the small, pure pieces of the "memory trick" services: the
de-duplicating abbreviation cache, the abbreviation fetch loop with its
cache map, the English and Hinglish grammar-sentence builders, the two
template fillers, the fixed-line lookup and the two name searches.

Conventions used throughout:

- Randomness is a parameter. `random.choice(xs)` is `Choice.Choose(xs, r)`,
  which takes `xs[r % |xs|]` and fails with `EmptySequence` (Python's
  `IndexError`) on an empty list. Every element is the outcome of some
  draw (`Choice.PickReachesAll`), so a property proved for all draws holds
  for every random outcome.
- Exceptions are values: `Wrappers.Result` carries `EmptySequence` or
  `MissingKey(key)` (Python's `KeyError`).
- A file is an `Option`: `None` when it does not exist, otherwise its
  decoded JSON. What a call writes back is part of its result.
- The Wikipedia summary call is an oracle `string -> Option<Entry>`.
- `lower`, `upper` and `capitalize` use ASCII case mapping (`Ascii`).
- `str.format` works on templates made of literal pieces and `{name}`
  fields (`Templates`).

Modules: `Wrappers`, `Ascii`, `Seqs`, `Choice`, `Templates` (shared);
`AbbrCache` (cache.py), `AbbrFetch` (main.py), `GrammarWords` (the word
selection loop, identical in sentence_rules.py and
sentence_rules_hinglish.py), `GrammarSentence` (sentence_rules.py),
`HinglishSentence` (sentence_rules_hinglish.py), `TemplateSentence`
(generate_template_sentence.py), `RouteTemplate`
(routes/generate_template_sentence.py), `FixedLines`
(routes/generate_fixed_lines_sentence.py), `LetterSearch` (search.py),
`ItemSearch` (routes/search.py).

Behaviour worth knowing before reading the contracts:

- In both template files each slot gets one word per template, drawn once
  before `format` is called, so repeated occurrences of a field share
  that word; a field that is not one of the six keyword arguments raises
  `KeyError`.
- In generate_template_sentence.py a missing word list counts as `[""]`,
  but a list that is present and empty makes `random.choice` raise
  `IndexError`. In routes/generate_template_sentence.py a missing list
  raises `KeyError`. Both are modelled as errors.
- main.py only upper-cases a term to form its cache key, and calls the
  summary service with the term as the request spelled it.

## Model

| member | source | states |
|---|---|---|
| Choice.Choose | routes/generate_template_sentence.py:11 | `random.choice` succeeds exactly on a non-empty list, with an element of it; an empty list gives `EmptySequence` |
| Choice.PickReachesAll | generate_template_sentence.py:27-31 | every element of a non-empty list is the outcome of some draw |
| Ascii.Capitalize | sentence_rules.py:24 | `capitalize()` keeps the length, leaves no lower-case first letter and no upper-case letter after it, and equals its input ignoring case |
| Ascii.ContainsSubIff | routes/search.py:14 | the left-to-right substring scan used for Python's `in` on strings holds exactly when some position of the text starts a copy of the pattern |
| Ascii.SplitJoin | routes/generate_fixed_lines_sentence.py:8 | `"\n".join` of at least one newline-free line is undone by splitting at newlines |
| Seqs.Filter | generate_template_sentence.py:23-25 | a conditional comprehension keeps exactly the matching elements, each as often as in the input, as an order-preserving sub-list |
| AbbrCache.HasAbbr | cache.py:14 | the left-to-right scan finds a match exactly when some stored entry has the same `abbr` ignoring case |
| AbbrCache.LoadCache | cache.py:6-10 | a missing cache file reads as the empty list; otherwise its entries |
| AbbrCache.Save | cache.py:12-16 | the cache is unchanged exactly when some entry has the same `abbr` ignoring case; otherwise the entry is appended after the unchanged earlier entries; it grows by at most one and afterwards holds the `abbr` |
| AbbrCache.SaveToCache | cache.py:12-18 | the file is left untouched exactly when the `abbr` is a duplicate; otherwise it holds the loaded list plus the entry, the file being created if missing, provided its directory `data/` exists |
| AbbrCache.SavePreservesNoDuplicates | cache.py:14-16 | a cache with no two entries sharing an `abbr` ignoring case keeps that property after a save |
| AbbrCache.SaveIdempotent | cache.py:14-16 | saving the same entry twice gives the same cache as saving it once |
| AbbrCache.NoDuplicatesCountAtMostOne | cache.py:14-16 | under the no-duplicates invariant every `abbr` has at most one entry |
| AbbrCache.SaveTwiceStoresOne | cache.py:12-16 | two saves of the same `abbr` in any case leave exactly one entry for it |
| AbbrFetch.LoadCache | main.py:16-20 | a missing cache file starts the loop from the empty map |
| AbbrFetch.Step | main.py:47-54 | a cached term is answered from the cache without the oracle; an uncached term is sent to the oracle once, and a successful answer is appended to the results and stored under the upper-cased term, while a failed one changes neither results nor cache; existing entries stay |
| AbbrFetch.Fetch | main.py:44-54 | neither the results nor the oracle calls outnumber the terms, and every term is answered or sent to the oracle |
| AbbrFetch.FetchAbbreviations | main.py:41-57 | the cache written back keeps every entry of the loaded file, the oracle is asked only about terms missing from the file, and every successful answer is written back |
| AbbrFetch.FetchKeepsCache | main.py:46-54 | existing cache entries are never overwritten or removed |
| AbbrFetch.FetchOnlyMisses | main.py:47-51 | the oracle is asked only about requested terms whose upper-cased form was not already cached |
| AbbrFetch.FetchStoresSuccesses | main.py:51-54 | every successful fetch is stored under the upper-cased term, with the fetched value |
| AbbrFetch.FetchNewKeys | main.py:47-54 | every key the request adds is the upper-cased form of a fetched term and holds that term's fetched value; failed fetches add nothing |
| AbbrFetch.FetchSucceedsOncePerKey | main.py:46-53 | after a successful fetch for a key, no later term with the same key reaches the oracle |
| AbbrFetch.FetchAnswersInOrder | main.py:44-54 | results answer the terms in input order from the final cache, and every term is answered except those whose fetch failed |
| AbbrFetch.FetchAllCached | main.py:46-49 | when every term is cached, the oracle is never called, the cache is unchanged and each term is answered from it |
| AbbrFetch.FetchAllStored | main.py:46-54 | when every fetch succeeds, every term ends up cached under its upper-cased form |
| AbbrFetch.FetchAllAnswered | main.py:46-54 | when every fetch succeeds, every term ends up cached and the results are the cached entries of the terms in order |
| AbbrFetch.FetchRepeatIsCached | main.py:41-57 | repeating a fully successful request against the cache it wrote gives the same answers, zero oracle calls and the same cache |
| GrammarWords.CategoryAt | sentence_rules.py:6-10 | the letter at position `i` goes to category `i % 4` of Nouns, Verbs, Adjectives, Adverbs, so the first four positions take them in that order |
| GrammarWords.Candidates | sentence_rules.py:11 | the candidates are the wordbank list for the category and the upper-cased letter when both keys exist, and none otherwise |
| GrammarWords.WordFor | sentence_rules.py:11-15 | a letter whose wordbank list exists and is non-empty gets a word of that list; any other letter gets itself |
| GrammarWords.LastIndex | sentence_rules.py:9-10 | the last position before `n` that falls on a category lies before `n` and has that category |
| GrammarWords.LastIndexIsLast | sentence_rules.py:9-10 | no position after it and before `n` falls on that category |
| GrammarWords.Select | sentence_rules.py:9-15 | a category has a selected word exactly when some letter position falls on it |
| GrammarWords.SelectLastWins | sentence_rules.py:9-15 | a category reached by some letter holds the word chosen for the last such letter |
| GrammarWords.SelectedWordsFromWordbank | sentence_rules_hinglish.py:9-15 | every selected word is a wordbank word for its category and letter, or the letter itself when there is none |
| GrammarSentence.GenerateGrammarSentence | sentence_rules.py:17-24 | the sentence is capitalised, starts with `T`, ends with `.`, and equals "The adj noun verbs adv." ignoring case, with "" for unfilled categories |
| GrammarSentence.Shape | sentence_rules.py:23 | the shape is nine characters longer than its four words, begins with "The " and ends with "." |
| GrammarSentence.ShapeMentionsWords | sentence_rules.py:23 | each of the four words can be found in the sentence shape, ignoring case |
| GrammarSentence.SentenceMentionsSelection | sentence_rules.py:18-24 | every selected word appears in the final sentence, ignoring case |
| GrammarSentence.NoLettersSentence | sentence_rules.py:18-24 | with no letters the result is `"The   s ."` |
| HinglishSentence.GenerateHinglishSentence | sentence_rules_hinglish.py:17-22 | the sentence is capitalised, starts with `W`, and equals "Woh adj noun verb karta hai adv" ignoring case, with "" for unfilled categories |
| HinglishSentence.Shape | sentence_rules_hinglish.py:22 | the shape is seventeen characters longer than its four words, begins with "Woh " and ends with the adverb |
| HinglishSentence.SentenceEndsWithAdverb | sentence_rules_hinglish.py:22 | nothing follows the adverb: no `s` suffix and no period |
| HinglishSentence.NoLettersSentence | sentence_rules_hinglish.py:17-22 | with no letters the result is `"Woh    karta hai "` |
| Templates.Format | generate_template_sentence.py:10-17 | formatting succeeds exactly when every field has a keyword argument; otherwise it fails with `KeyError` for the leftmost unbound field |
| Templates.FormatSameWordPerField | routes/generate_template_sentence.py:12-19 | each occurrence of a field is replaced by that field's one argument, between the formatted text before and after it |
| Templates.FormatNoFields | routes/generate_template_sentence.py:12 | a template without placeholders formats to its own text |
| Templates.FormatWithOwnMarkers | generate_template_sentence.py:10-17 | formatting replaces fields and nothing else: filling each field with its own `{name}` gives back the template text |
| TemplateSentence.Words | generate_template_sentence.py:11-16 | the six keyword arguments exist exactly when no list present in the wordbank is empty; each word comes from the list the wordbank holds for its slot, and a missing list gives "" |
| TemplateSentence.FillAll | generate_template_sentence.py:8-18 | filling succeeds exactly when the lists are usable and every template uses only the six fields; an empty list present in the wordbank raises `IndexError`, an unknown field `KeyError`; on success there is one filled sentence per template, in template order |
| TemplateSentence.MatchesAny | generate_template_sentence.py:22-24 | scanning the lower-cased letters in order finds a match exactly when one of them occurs in the lower-cased sentence |
| TemplateSentence.ChooseSentence | generate_template_sentence.py:20-31 | the answer is a filled sentence, and one that contains a requested letter ignoring case whenever such a sentence exists |
| TemplateSentence.GenerateTemplateSentence | generate_template_sentence.py:3-31 | no templates gives "No templates available."; otherwise it fails exactly when filling fails, and answers a filled sentence, a matching one when any matches |
| TemplateSentence.EveryCandidateReachable | generate_template_sentence.py:21-31 | every matching sentence can be the answer; with no match or no letters every filled sentence can |
| TemplateSentence.SameWordPerPlaceholder | generate_template_sentence.py:10-17 | within one filled template every occurrence of a placeholder gets the same word from its list |
| RouteTemplate.SlotWord | routes/generate_template_sentence.py:13-18 | a slot's word comes from its list; a missing list raises `KeyError` with its name and an empty list `IndexError` |
| RouteTemplate.Words | routes/generate_template_sentence.py:12-19 | the six capitalised arguments exist exactly when all six lists are present and non-empty, each word from its list; otherwise the error is that of the first missing or empty list in argument order, `KeyError` with its name or `IndexError` |
| RouteTemplate.EmptyDictMissesArticles | routes/generate_template_sentence.py:12-13 | an empty word dictionary raises `KeyError('articles')`, the first argument evaluated |
| RouteTemplate.GenerateSentence | routes/generate_template_sentence.py:10-19 | no templates is an error; otherwise success exactly when the lists are valid and the chosen template uses only the six capitalised fields; invalid lists raise the error of the first bad list in argument order Article, Adjective, Noun, Verb, Adverb, Preposition (`KeyError` with its name, or `IndexError`), and with valid lists the only error is `KeyError` for an unknown field; the result is a template of the list formatted with the words |
| RouteTemplate.NoFieldsUnchanged | routes/generate_template_sentence.py:12 | a chosen template without placeholders is returned unchanged |
| RouteTemplate.SameWordPerSlot | routes/generate_template_sentence.py:12-19 | all occurrences of one slot receive the same word, a member of that slot's list |
| FixedLines.GenerateFixedLinesSentence | routes/generate_fixed_lines_sentence.py:1-13 | an absent name gives `<No data for name>`; no lines give "", one line gives that line |
| FixedLines.LinesRecoverable | routes/generate_fixed_lines_sentence.py:5-10 | the answer splits at its newlines back into exactly the stored lines |
| FixedLines.OnlyNameConsulted | routes/generate_fixed_lines_sentence.py:5-6 | the answer depends only on the exact key `name` and its lines |
| FixedLines.JoinLength | routes/generate_fixed_lines_sentence.py:8 | the joined answer adds exactly one newline between neighbouring lines |
| LetterSearch.SearchByLetter | search.py:7-14 | a missing file gives "Category not found"; otherwise the letter is echoed and the results are exactly the items starting with it ignoring case, each as often as in the data, in data order |
| LetterSearch.EmptyLetterKeepsAll | search.py:11 | an empty letter returns every item |
| ItemSearch.SearchItems | routes/search.py:7-17 | an empty query is rejected before the file is read; a missing file gives "Category not found"; otherwise category and query are echoed and the results are exactly the items containing the query ignoring case, with multiplicity, in data order |
| ItemSearch.MatchIsSubstring | routes/search.py:14 | an item matches exactly when the lower-cased query occurs at some position of the lower-cased item |

## Left out

- File I/O (JSON load and dump in cache.py, main.py, utils.py and `load_templates`): files are values passed in and returned.
- The HTTP call in `fetch_wikipedia_summary` and wiki_utils.py: replaced by the oracle parameter of `AbbrFetch`.
- AbbrFetch.FetchKeepsCache and AbbrCache.SavePreservesNoDuplicates: each call is modelled as running alone against its file. Both cache paths load the file, compute, and rewrite it without a lock (cache.py:13-18, main.py:43-56). `fetch_abbreviations` is a synchronous endpoint, so concurrent requests can interleave, and the later write discards entries the other stored. The guarantees hold per call, not across concurrent calls.
- AbbrCache.SaveToCache: does not model the missing-directory failure. cache.py:17 opens `data/abbreviations.json` for writing without creating `data/` (unlike main.py:24), so a missing directory raises `FileNotFoundError`; the model always writes.
- AbbrFetch.FetchAbbreviations: does not model the exception path. `requests.get` (main.py:30) and `response.json()` (main.py:32) can raise, which leaves `fetch_abbreviations` before `save_cache` (main.py:56), so nothing is written back and no response is returned; the oracle returns `None` or an entry and cannot express this.
- FastAPI routing and pydantic request models (trick.py, routes/tricks.py, routes/wiki.py, wikipedia_fetch.py, the router setup of search.py and routes/search.py): plumbing without logic of its own.
- GPT-2 loading and text generation in Main.py: model inference and floating-point sampling.
- The debug `print` calls of routes/generate_fixed_lines_sentence.py: output only.
- Python's full Unicode case mapping: `lower`, `upper` and `capitalize` are modelled on ASCII letters only.
- The full `str.format` grammar (brace escapes, format specifications, conversions, attribute and index fields): templates are given already split into literal pieces and named fields, so template parsing is not modelled.
- Dynamic typing: wordbanks, caches and search data are given their intended JSON shapes; values of the wrong type are not modelled.
- AbbrFetch.FetchAnswersInOrder: states which terms are answered through their count and order, not a per-term answered/not-answered flag, because a failed term can still find its key cached later by a different spelling.

=== FILE: ascii.dfy ===
/** Python's `str.lower`, `str.upper`, `str.capitalize`, `str.startswith`,
    the `in` substring test, `"\n".join` and `str.split`, restricted to
    ASCII case mapping. */
module Ascii {

  predicate IsUpper(c: char) { 'A' <= c <= 'Z' }

  predicate IsLower(c: char) { 'a' <= c <= 'z' }

  function LowerChar(c: char): char {
    if IsUpper(c) then (c as int + 32) as char else c
  }

  function UpperChar(c: char): char {
    if IsLower(c) then (c as int - 32) as char else c
  }

  /** `s.lower()` */
  function Lower(s: string): (r: string)
    ensures |r| == |s|
    ensures forall i :: 0 <= i < |s| ==> r[i] == LowerChar(s[i])
  {
    seq(|s|, i requires 0 <= i < |s| => LowerChar(s[i]))
  }

  /** `s.upper()` */
  function Upper(s: string): (r: string)
    ensures |r| == |s|
    ensures forall i :: 0 <= i < |s| ==> r[i] == UpperChar(s[i])
  {
    seq(|s|, i requires 0 <= i < |s| => UpperChar(s[i]))
  }

  lemma LowerAppend(a: string, b: string)
    ensures Lower(a + b) == Lower(a) + Lower(b)
  {
  }

  /** The shape `str.capitalize()` produces: no lower-case letter first,
      no upper-case letter after it. */
  predicate IsCapitalized(s: string) {
    && (|s| > 0 ==> !IsLower(s[0]))
    && forall i :: 1 <= i < |s| ==> !IsUpper(s[i])
  }

  /** Two strings that are equal once both are lower-cased. */
  predicate EqualIgnoringCase(a: string, b: string) {
    Lower(a) == Lower(b)
  }

  /** `s.capitalize()`: the first character upper-cased, the rest lower-cased. */
  function Capitalize(s: string): (r: string)
    ensures |r| == |s|
    ensures IsCapitalized(r)
    ensures EqualIgnoringCase(r, s)
  {
    if |s| == 0 then "" else [UpperChar(s[0])] + Lower(s[1..])
  }

  /** Capitalising upper-cases the first character and lower-cases the last. */
  lemma CapitalizeEnds(s: string)
    requires |s| >= 2
    ensures Capitalize(s)[0] == UpperChar(s[0])
    ensures Capitalize(s)[|s| - 1] == LowerChar(s[|s| - 1])
  {
  }

  /** `s.startswith(p)` */
  predicate IsPrefix(p: string, s: string) {
    |p| <= |s| && s[..|p|] == p
  }

  /** `sub in s`, computed by trying every start position from the left. */
  predicate ContainsSub(s: string, sub: string)
    decreases |s|
  {
    IsPrefix(sub, s) || (|s| > 0 && ContainsSub(s[1..], sub))
  }

  /** The scan agrees with the textbook definition of a substring: some
      position of `s` starts a copy of `sub`. */
  lemma {:induction false} ContainsSubIff(s: string, sub: string)
    ensures ContainsSub(s, sub) <==> exists i :: 0 <= i <= |s| && IsPrefix(sub, s[i..])
    decreases |s|
  {
    if ContainsSub(s, sub) {
      if IsPrefix(sub, s) {
        assert s[0..] == s;
      } else {
        ContainsSubIff(s[1..], sub);
        var i :| 0 <= i <= |s[1..]| && IsPrefix(sub, s[1..][i..]);
        assert s[1..][i..] == s[i + 1..];
      }
    }
    if exists i :: 0 <= i <= |s| && IsPrefix(sub, s[i..]) {
      var i :| 0 <= i <= |s| && IsPrefix(sub, s[i..]);
      if i == 0 {
        assert s[0..] == s;
      } else {
        assert s[1..][i - 1..] == s[i..];
        ContainsSubIff(s[1..], sub);
      }
    }
  }

  /** A piece of a concatenation is a substring of it. */
  lemma ContainsMiddle(a: string, b: string, c: string)
    ensures ContainsSub(a + b + c, b)
  {
    var s := a + b + c;
    assert s[|a|..][..|b|] == b;
    ContainsSubIff(s, b);
  }

  /** The same, ignoring case. */
  lemma ContainsMiddleIgnoringCase(a: string, b: string, c: string)
    ensures ContainsSub(Lower(a + b + c), Lower(b))
  {
    LowerAppend(a + b, c);
    LowerAppend(a, b);
    ContainsMiddle(Lower(a), Lower(b), Lower(c));
  }

  /** `sep.join(lines)` for a one-character separator. */
  function Join(lines: seq<string>, sep: char): (r: string)
    ensures |lines| == 0 ==> r == ""
    decreases |lines|
  {
    if |lines| == 0 then ""
    else if |lines| == 1 then lines[0]
    else lines[0] + [sep] + Join(lines[1..], sep)
  }

  /** `s.split(sep)`: always at least one piece, separators dropped. */
  function Split(s: string, sep: char): (r: seq<string>)
    ensures |r| > 0
    decreases |s|
  {
    if |s| == 0 then [""]
    else
      var rest := Split(s[1..], sep);
      if s[0] == sep then [""] + rest
      else [[s[0]] + rest[0]] + rest[1..]
  }

  /** A text without the separator splits into itself alone. */
  lemma {:induction false} SplitNoSep(s: string, sep: char)
    requires sep !in s
    ensures Split(s, sep) == [s]
    decreases |s|
  {
    if |s| > 0 {
      assert sep !in s[1..];
      SplitNoSep(s[1..], sep);
      assert [s[0]] + s[1..] == s;
    }
  }

  /** Splitting at a known first separator. */
  lemma {:induction false} SplitAtSep(a: string, b: string, sep: char)
    requires sep !in a
    ensures Split(a + [sep] + b, sep) == [a] + Split(b, sep)
    decreases |a|
  {
    var s := a + [sep] + b;
    if |a| == 0 {
      assert s[1..] == b;
    } else {
      assert s[1..] == a[1..] + [sep] + b;
      assert sep !in a[1..];
      SplitAtSep(a[1..], b, sep);
      assert [a[0]] + a[1..] == a;
    }
  }

  /** Joining lines that do not contain the separator can be undone by
      splitting, as long as there is at least one line (`Join([])` and
      `Join([""])` are both empty). */
  lemma {:induction false} SplitJoin(lines: seq<string>, sep: char)
    requires |lines| > 0
    requires forall i :: 0 <= i < |lines| ==> sep !in lines[i]
    ensures Split(Join(lines, sep), sep) == lines
    decreases |lines|
  {
    if |lines| == 1 {
      SplitNoSep(lines[0], sep);
    } else {
      SplitAtSep(lines[0], Join(lines[1..], sep), sep);
      SplitJoin(lines[1..], sep);
      assert [lines[0]] + lines[1..] == lines;
    }
  }
}

=== FILE: cache.dfy ===
/** The de-duplicating abbreviation cache of cache.py: a JSON list of
    entries, where a new entry is appended only when no stored entry has
    the same `abbr` ignoring case. The file is a value: `None` when it does
    not exist, `Some(entries)` otherwise. */
module AbbrCache {
  import opened Wrappers
  import opened Ascii

  /** One resolved abbreviation, as stored in the cache file. */
  datatype Entry = Entry(abbr: string, fullForm: string, description: string)

  predicate SameAbbr(a: Entry, b: Entry) {
    EqualIgnoringCase(a.abbr, b.abbr)
  }

  /** Some stored entry already carries the `abbr` of `e`, ignoring case. */
  predicate HasAbbr(cache: seq<Entry>, e: Entry)
    ensures HasAbbr(cache, e) <==> exists i :: 0 <= i < |cache| && SameAbbr(cache[i], e)
    decreases |cache|
  {
    |cache| > 0 && (SameAbbr(cache[0], e) || HasAbbr(cache[1..], e))
  }

  /** The cache invariant: no two entries share an `abbr` ignoring case. */
  predicate NoDuplicateAbbrs(cache: seq<Entry>) {
    forall i, j :: 0 <= i < j < |cache| ==> !SameAbbr(cache[i], cache[j])
  }

  /** How many stored entries carry the `abbr` of `e`, ignoring case. */
  function CountAbbr(cache: seq<Entry>, e: Entry): (n: nat)
    ensures n <= |cache|
    decreases |cache|
  {
    if |cache| == 0 then 0
    else CountAbbr(cache[..|cache| - 1], e) + (if SameAbbr(cache[|cache| - 1], e) then 1 else 0)
  }

  /** `load_cache()`: a missing file reads as the empty list. */
  function LoadCache(file: Option<seq<Entry>>): (cache: seq<Entry>)
    ensures file.None? ==> cache == []
    ensures file.Some? ==> cache == file.value
  {
    match file
    case None => []
    case Some(entries) => entries
  }

  /** The list `save_to_cache` leaves behind, given the list it loaded. */
  function Save(cache: seq<Entry>, e: Entry): (r: seq<Entry>)
    ensures r == cache <==> HasAbbr(cache, e)
    ensures !HasAbbr(cache, e) ==> r == cache + [e]
    ensures |cache| <= |r| <= |cache| + 1
    ensures r[..|cache|] == cache
    ensures HasAbbr(r, e)
  {
    if HasAbbr(cache, e) then cache
    else
      assert (cache + [e])[|cache|] == e;
      cache + [e]
  }

  /** `save_to_cache(new_entry)` on the file: the file after the call. A
      duplicate leaves the file untouched (it is not rewritten); otherwise
      the loaded list with the entry appended is written, creating the file
      if it was missing. */
  function SaveToCache(file: Option<seq<Entry>>, e: Entry): (file': Option<seq<Entry>>)
    ensures file'.Some?
    ensures file' == file <==> HasAbbr(LoadCache(file), e)
    ensures file' != file ==> file'.value == LoadCache(file) + [e]
  {
    var cache := LoadCache(file);
    if HasAbbr(cache, e) then file else Some(Save(cache, e))
  }

  /** Saving keeps the cache free of case-insensitive duplicates. */
  lemma SavePreservesNoDuplicates(cache: seq<Entry>, e: Entry)
    requires NoDuplicateAbbrs(cache)
    ensures NoDuplicateAbbrs(Save(cache, e))
  {
  }

  /** Saving the same entry a second time changes nothing. */
  lemma SaveIdempotent(cache: seq<Entry>, e: Entry)
    ensures Save(Save(cache, e), e) == Save(cache, e)
  {
  }

  /** The invariant bounds every `abbr` to at most one stored entry. */
  lemma {:induction false} NoDuplicatesCountAtMostOne(cache: seq<Entry>, e: Entry)
    requires NoDuplicateAbbrs(cache)
    ensures CountAbbr(cache, e) <= 1
    decreases |cache|
  {
    if |cache| > 0 {
      var n := |cache| - 1;
      var init := cache[..n];
      assert NoDuplicateAbbrs(init);
      NoDuplicatesCountAtMostOne(init, e);
      if SameAbbr(cache[n], e) {
        assert !HasAbbr(init, e) by {
          forall i | 0 <= i < |init|
            ensures !SameAbbr(init[i], e)
          {
            assert init[i] == cache[i];
          }
        }
        CountPositive(init, e);
      }
    }
  }

  /** A non-zero count means some entry carries the `abbr`. */
  lemma {:induction false} CountPositive(cache: seq<Entry>, e: Entry)
    ensures CountAbbr(cache, e) > 0 <==> HasAbbr(cache, e)
    decreases |cache|
  {
    if |cache| > 0 {
      var n := |cache| - 1;
      CountPositive(cache[..n], e);
      if HasAbbr(cache, e) && !SameAbbr(cache[n], e) {
        var i :| 0 <= i < |cache| && SameAbbr(cache[i], e);
        assert cache[..n][i] == cache[i];
      }
    }
  }

  /** Two saves of entries with the same `abbr`, in any case, into a cache
      that keeps its invariant, leave exactly one entry for that `abbr`. */
  lemma SaveTwiceStoresOne(cache: seq<Entry>, e1: Entry, e2: Entry)
    requires NoDuplicateAbbrs(cache)
    requires SameAbbr(e1, e2)
    ensures CountAbbr(Save(Save(cache, e1), e2), e1) == 1
  {
    var r := Save(Save(cache, e1), e2);
    SavePreservesNoDuplicates(cache, e1);
    SavePreservesNoDuplicates(Save(cache, e1), e2);
    NoDuplicatesCountAtMostOne(r, e1);
    assert HasAbbr(r, e1) by {
      var i :| 0 <= i < |r| && SameAbbr(r[i], e2);
      assert SameAbbr(r[i], e1);
    }
    CountPositive(r, e1);
  }
}

=== FILE: choice.dfy ===
/** `random.choice`, with the randomness made explicit: the caller passes
    the draw `r`, and the element at `r` modulo the length is taken. Every
    element is the outcome of some draw, so quantifying over `r` covers
    every behaviour of the random call. */
module Choice {
  import opened Wrappers

  function Pick<T>(xs: seq<T>, r: nat): (x: T)
    requires |xs| > 0
    ensures x in xs
  {
    xs[r % |xs|]
  }

  /** `random.choice(xs)`, which raises `IndexError` on an empty list. */
  function Choose<T>(xs: seq<T>, r: nat): (res: Result<T>)
    ensures res.Ok? <==> |xs| > 0
    ensures res.Ok? ==> res.value in xs
    ensures res.Err? ==> res.error == EmptySequence
  {
    if |xs| == 0 then Err(EmptySequence) else Ok(Pick(xs, r))
  }

  /** No element is out of reach of the random choice. */
  lemma PickReachesAll<T>(xs: seq<T>, x: T)
    requires x in xs
    ensures exists r: nat :: Pick(xs, r) == x
  {
    var i :| 0 <= i < |xs| && xs[i] == x;
    assert Pick(xs, i) == x;
  }
}

=== FILE: fetch.dfy ===
/** The `/fetch-abbreviations/` loop of main.py. The cache file holds a
    JSON object from upper-cased term to entry; each requested term is
    answered from it, or else looked up once through the summary service,
    whose successful answers are stored. The service is an oracle from the
    term, exactly as the request spelled it, to an optional entry. */
module AbbrFetch {
  import opened Wrappers
  import opened Ascii
  import AbbrCache

  type Entry = AbbrCache.Entry

  type Cache = map<string, Entry>

  /** `fetch_wikipedia_summary`: `None` for any non-200 answer. */
  type Oracle = string -> Option<Entry>

  /** The state of one request: the answers so far, the cache as it will
      be written back, and every term the oracle was asked about, in order. */
  datatype Run = Run(results: seq<Entry>, cache: Cache, asked: seq<string>)

  /** `load_cache()` of main.py: a missing file reads as the empty map. */
  function LoadCache(file: Option<Cache>): (cache: Cache)
    ensures file.None? ==> cache == map[]
    ensures file.Some? ==> cache == file.value
  {
    match file
    case None => map[]
    case Some(c) => c
  }

  /** One iteration of the loop body for `term`: a cache hit answers it
      without the oracle; a miss asks the oracle once, and a successful
      answer is both returned and stored under the upper-cased term. */
  function Step(run: Run, term: string, fetch: Oracle): (r: Run)
    ensures Extends(run.cache, r.cache)
    ensures Upper(term) in run.cache ==> r.asked == run.asked && r.cache == run.cache
    ensures Upper(term) !in run.cache ==> r.asked == run.asked + [term]
    ensures |r.results| == |run.results| + (if Upper(term) in run.cache || fetch(term).Some? then 1 else 0)
    ensures r.results[..|run.results|] == run.results
    ensures |r.results| > |run.results| ==>
      Upper(term) in r.cache && r.results[|run.results|] == r.cache[Upper(term)]
    ensures Upper(term) !in run.cache && fetch(term).None? ==>
      r.cache == run.cache && r.results == run.results
    ensures Upper(term) !in run.cache && fetch(term).Some? ==>
      r.cache == run.cache[Upper(term) := fetch(term).value] && r.results == run.results + [fetch(term).value]
  {
    var key := Upper(term);
    if key in run.cache then
      run.(results := run.results + [run.cache[key]])
    else
      match fetch(term)
      case None => run.(asked := run.asked + [term])
      case Some(data) => Run(run.results + [data], run.cache[key := data], run.asked + [term])
  }

  /** The whole loop over `terms`, starting from the loaded cache. */
  function Fetch(cache: Cache, terms: seq<string>, fetch: Oracle): (r: Run)
    ensures |r.results| <= |terms| && |r.asked| <= |terms|
    ensures |terms| <= |r.results| + |r.asked|
    decreases |terms|
  {
    if |terms| == 0 then Run([], cache, [])
    else Step(Fetch(cache, terms[..|terms| - 1], fetch), terms[|terms| - 1], fetch)
  }

  /** `fetch_abbreviations`: load the cache file, run the loop; the
      returned run's cache is what `save_cache` writes back and its results
      are the `fetched` list of the response. */
  function FetchAbbreviations(file: Option<Cache>, terms: seq<string>, fetch: Oracle): (r: Run)
    ensures Extends(LoadCache(file), r.cache)
    ensures OnlyMissesFetched(r, LoadCache(file), terms)
    ensures SuccessesStored(r, fetch)
  {
    FetchKeepsCache(LoadCache(file), terms, fetch);
    FetchOnlyMisses(LoadCache(file), terms, fetch);
    FetchStoresSuccesses(LoadCache(file), terms, fetch);
    Fetch(LoadCache(file), terms, fetch)
  }

  /** Every key of `c` is still in `c'` with the same value. */
  predicate Extends(c: Cache, c': Cache) {
    forall k :: k in c ==> k in c' && c'[k] == c[k]
  }

  /** The oracle was asked only about requested terms whose upper-cased
      form was not in the loaded cache. */
  predicate OnlyMissesFetched(run: Run, cache: Cache, terms: seq<string>) {
    forall j :: 0 <= j < |run.asked| ==> run.asked[j] in terms && Upper(run.asked[j]) !in cache
  }

  /** Every successful oracle answer is stored under the upper-cased term. */
  predicate SuccessesStored(run: Run, fetch: Oracle) {
    forall j :: 0 <= j < |run.asked| && fetch(run.asked[j]).Some? ==>
      Upper(run.asked[j]) in run.cache && run.cache[Upper(run.asked[j])] == fetch(run.asked[j]).value
  }

  /** Every key added to `cache` is the upper-cased form of a fetched term,
      holding the oracle's answer for that term. */
  predicate NewKeysFetched(run: Run, cache: Cache, fetch: Oracle) {
    forall k :: k in run.cache && k !in cache ==>
      exists j :: 0 <= j < |run.asked| && Upper(run.asked[j]) == k && fetch(run.asked[j]) == Some(run.cache[k])
  }

  /** No fetch follows a successful fetch for the same upper-cased key. */
  predicate SucceedsOncePerKey(run: Run, fetch: Oracle) {
    forall i, j :: 0 <= i < j < |run.asked| && Upper(run.asked[i]) == Upper(run.asked[j]) ==>
      fetch(run.asked[i]).None?
  }

  /** How many of the oracle calls in `asked` failed. */
  function CountFailed(asked: seq<string>, fetch: Oracle): (n: nat)
    ensures n <= |asked|
    decreases |asked|
  {
    if |asked| == 0 then 0
    else
      var n := |asked| - 1;
      CountFailed(asked[..n], fetch) + (if fetch(asked[n]).None? then 1 else 0)
  }

  /** `results` answers some of `terms`, in their order, each answer being
      the entry `cache` holds for the term's upper-cased form. */
  predicate AnswersIn(results: seq<Entry>, terms: seq<string>, cache: Cache)
    decreases |terms|
  {
    if |terms| == 0 then results == []
    else
      var n := |terms| - 1;
      || AnswersIn(results, terms[..n], cache)
      || (&& |results| > 0
          && Upper(terms[n]) in cache
          && results[|results| - 1] == cache[Upper(terms[n])]
          && AnswersIn(results[..|results| - 1], terms[..n], cache))
  }

  lemma {:induction false} AnswersInExtends(results: seq<Entry>, terms: seq<string>, c: Cache, c': Cache)
    requires AnswersIn(results, terms, c)
    requires Extends(c, c')
    ensures AnswersIn(results, terms, c')
    decreases |terms|
  {
    if |terms| > 0 {
      var n := |terms| - 1;
      if AnswersIn(results, terms[..n], c) {
        AnswersInExtends(results, terms[..n], c, c');
      } else {
        AnswersInExtends(results[..|results| - 1], terms[..n], c, c');
      }
    }
  }

  /** Existing cache entries are never overwritten or removed. */
  lemma {:induction false} FetchKeepsCache(cache: Cache, terms: seq<string>, fetch: Oracle)
    ensures Extends(cache, Fetch(cache, terms, fetch).cache)
    decreases |terms|
  {
    if |terms| > 0 {
      FetchKeepsCache(cache, terms[..|terms| - 1], fetch);
    }
  }

  /** The oracle is asked only about requested terms whose upper-cased
      form was not in the loaded cache. */
  lemma {:induction false} FetchOnlyMisses(cache: Cache, terms: seq<string>, fetch: Oracle)
    ensures OnlyMissesFetched(Fetch(cache, terms, fetch), cache, terms)
    decreases |terms|
  {
    if |terms| > 0 {
      var n := |terms| - 1;
      var p := Fetch(cache, terms[..n], fetch);
      var r := Fetch(cache, terms, fetch);
      FetchOnlyMisses(cache, terms[..n], fetch);
      FetchKeepsCache(cache, terms[..n], fetch);
      assert r == Step(p, terms[n], fetch);
      if Upper(terms[n]) !in p.cache {
        assert r.asked == p.asked + [terms[n]];
        forall j | 0 <= j < |r.asked|
          ensures r.asked[j] in terms && Upper(r.asked[j]) !in cache
        {
          if j < |p.asked| {
            assert r.asked[j] == p.asked[j];
            assert p.asked[j] in terms[..n];
          }
        }
      }
    }
  }

  /** Every successful oracle answer is stored under the upper-cased term. */
  lemma {:induction false} FetchStoresSuccesses(cache: Cache, terms: seq<string>, fetch: Oracle)
    ensures SuccessesStored(Fetch(cache, terms, fetch), fetch)
    decreases |terms|
  {
    if |terms| > 0 {
      var n := |terms| - 1;
      var p := Fetch(cache, terms[..n], fetch);
      var r := Fetch(cache, terms, fetch);
      FetchStoresSuccesses(cache, terms[..n], fetch);
      assert r == Step(p, terms[n], fetch);
      assert Extends(p.cache, r.cache);
      if Upper(terms[n]) !in p.cache {
        assert r.asked == p.asked + [terms[n]];
        forall j | 0 <= j < |r.asked| && fetch(r.asked[j]).Some?
          ensures Upper(r.asked[j]) in r.cache && r.cache[Upper(r.asked[j])] == fetch(r.asked[j]).value
        {
          if j < |p.asked| {
            assert r.asked[j] == p.asked[j];
          }
        }
      }
    }
  }

  /** Every key the request adds is the upper-cased form of a fetched
      term, holding the oracle's answer for that term. */
  lemma {:induction false} FetchNewKeys(cache: Cache, terms: seq<string>, fetch: Oracle)
    ensures NewKeysFetched(Fetch(cache, terms, fetch), cache, fetch)
    decreases |terms|
  {
    if |terms| > 0 {
      var n := |terms| - 1;
      var p := Fetch(cache, terms[..n], fetch);
      var r := Fetch(cache, terms, fetch);
      FetchNewKeys(cache, terms[..n], fetch);
      if r.asked != p.asked {
        assert r.asked == p.asked + [terms[n]];
        assert r.asked[|p.asked|] == terms[n];
        forall k | k in r.cache && k !in cache
          ensures exists j :: 0 <= j < |r.asked| && Upper(r.asked[j]) == k && fetch(r.asked[j]) == Some(r.cache[k])
        {
          if k in p.cache {
            var j :| 0 <= j < |p.asked| && Upper(p.asked[j]) == k && fetch(p.asked[j]) == Some(p.cache[k]);
            assert r.asked[j] == p.asked[j];
          }
        }
      }
    }
  }

  /** Once a fetch for some upper-cased key has succeeded, no later term
      of the request with the same key reaches the oracle: it is a cache hit. */
  lemma {:induction false} FetchSucceedsOncePerKey(cache: Cache, terms: seq<string>, fetch: Oracle)
    ensures SucceedsOncePerKey(Fetch(cache, terms, fetch), fetch)
    decreases |terms|
  {
    if |terms| > 0 {
      var n := |terms| - 1;
      var p := Fetch(cache, terms[..n], fetch);
      var r := Fetch(cache, terms, fetch);
      FetchSucceedsOncePerKey(cache, terms[..n], fetch);
      FetchStoresSuccesses(cache, terms[..n], fetch);
      assert r == Step(p, terms[n], fetch);
      if Upper(terms[n]) !in p.cache {
        assert r.asked == p.asked + [terms[n]];
        forall i, j | 0 <= i < j < |r.asked| && Upper(r.asked[i]) == Upper(r.asked[j])
          ensures fetch(r.asked[i]).None?
        {
          assert r.asked[i] == p.asked[i];
          if j < |p.asked| {
            assert r.asked[j] == p.asked[j];
          }
        }
      }
    }
  }

  /** The results answer the terms in order, each from the final cache. */
  lemma {:induction false} FetchAnswersFromCache(cache: Cache, terms: seq<string>, fetch: Oracle)
    ensures AnswersIn(Fetch(cache, terms, fetch).results, terms, Fetch(cache, terms, fetch).cache)
    decreases |terms|
  {
    if |terms| > 0 {
      var n := |terms| - 1;
      var init := terms[..n];
      var p := Fetch(cache, init, fetch);
      var r := Fetch(cache, terms, fetch);
      FetchAnswersFromCache(cache, init, fetch);
      if |r.results| > |p.results| {
        assert r.results[..|r.results| - 1] == p.results;
        AnswersInExtends(p.results, init, p.cache, r.cache);
      }
    }
  }

  /** Every term is answered except those whose fetch failed. */
  lemma {:induction false} FetchAnswersCounted(cache: Cache, terms: seq<string>, fetch: Oracle)
    ensures |Fetch(cache, terms, fetch).results| + CountFailed(Fetch(cache, terms, fetch).asked, fetch) == |terms|
    decreases |terms|
  {
    if |terms| > 0 {
      var n := |terms| - 1;
      var p := Fetch(cache, terms[..n], fetch);
      var r := Fetch(cache, terms, fetch);
      FetchAnswersCounted(cache, terms[..n], fetch);
      if Upper(terms[n]) !in p.cache {
        assert r.asked[..|r.asked| - 1] == p.asked;
      }
    }
  }

  /** The results answer the terms in order, each from the final cache,
      and every term is answered except those whose fetch failed. */
  lemma FetchAnswersInOrder(cache: Cache, terms: seq<string>, fetch: Oracle)
    ensures AnswersIn(Fetch(cache, terms, fetch).results, terms, Fetch(cache, terms, fetch).cache)
    ensures |Fetch(cache, terms, fetch).results| + CountFailed(Fetch(cache, terms, fetch).asked, fetch) == |terms|
  {
    FetchAnswersFromCache(cache, terms, fetch);
    FetchAnswersCounted(cache, terms, fetch);
  }

  /** The entries `cache` holds for every term, in order. */
  function Lookups(cache: Cache, terms: seq<string>): (r: seq<Entry>)
    requires forall i :: 0 <= i < |terms| ==> Upper(terms[i]) in cache
    ensures |r| == |terms|
    ensures forall i :: 0 <= i < |terms| ==> r[i] == cache[Upper(terms[i])]
    decreases |terms|
  {
    if |terms| == 0 then []
    else Lookups(cache, terms[..|terms| - 1]) + [cache[Upper(terms[|terms| - 1])]]
  }

  /** A request whose every term is already cached calls the oracle for
      none of them, leaves the cache as it was and answers every term from
      it. */
  lemma {:induction false} FetchAllCached(cache: Cache, terms: seq<string>, fetch: Oracle)
    requires forall i :: 0 <= i < |terms| ==> Upper(terms[i]) in cache
    ensures Fetch(cache, terms, fetch) == Run(Lookups(cache, terms), cache, [])
    decreases |terms|
  {
    if |terms| > 0 {
      var n := |terms| - 1;
      FetchAllCached(cache, terms[..n], fetch);
    }
  }

  /** Looking terms up in a larger cache gives the same entries. */
  lemma LookupsExtends(c: Cache, c': Cache, terms: seq<string>)
    requires forall i :: 0 <= i < |terms| ==> Upper(terms[i]) in c
    requires Extends(c, c')
    ensures Lookups(c', terms) == Lookups(c, terms)
  {
  }

  /** Every oracle call of the request succeeded. */
  predicate AllFetchesSucceed(run: Run, fetch: Oracle) {
    forall j :: 0 <= j < |run.asked| ==> fetch(run.asked[j]).Some?
  }

  /** Oracle calls only accumulate, so success of all calls carries over
      to the request without its last term. */
  lemma AllFetchesSucceedPrefix(cache: Cache, terms: seq<string>, fetch: Oracle)
    requires |terms| > 0
    requires AllFetchesSucceed(Fetch(cache, terms, fetch), fetch)
    ensures AllFetchesSucceed(Fetch(cache, terms[..|terms| - 1], fetch), fetch)
  {
    var p := Fetch(cache, terms[..|terms| - 1], fetch);
    var r := Fetch(cache, terms, fetch);
    forall j | 0 <= j < |p.asked|
      ensures fetch(p.asked[j]).Some?
    {
      assert p.asked[j] == r.asked[j];
    }
  }

  /** When every oracle call of a request succeeds, every term ends up
      cached. */
  lemma {:induction false} FetchAllStored(cache: Cache, terms: seq<string>, fetch: Oracle)
    requires AllFetchesSucceed(Fetch(cache, terms, fetch), fetch)
    ensures forall i :: 0 <= i < |terms| ==> Upper(terms[i]) in Fetch(cache, terms, fetch).cache
    decreases |terms|
  {
    if |terms| > 0 {
      var n := |terms| - 1;
      var init := terms[..n];
      var p := Fetch(cache, init, fetch);
      var r := Fetch(cache, terms, fetch);
      AllFetchesSucceedPrefix(cache, terms, fetch);
      FetchAllStored(cache, init, fetch);
      if Upper(terms[n]) !in p.cache {
        assert r.asked[|p.asked|] == terms[n];
      }
      forall i | 0 <= i < n
        ensures Upper(terms[i]) in r.cache
      {
        assert terms[i] == init[i];
        assert Upper(init[i]) in p.cache;
      }
    }
  }

  /** When every oracle call of a request succeeds, every term ends up
      cached and answered, in order. */
  lemma {:induction false} FetchAllAnswered(cache: Cache, terms: seq<string>, fetch: Oracle)
    requires AllFetchesSucceed(Fetch(cache, terms, fetch), fetch)
    ensures forall i :: 0 <= i < |terms| ==> Upper(terms[i]) in Fetch(cache, terms, fetch).cache
    ensures Fetch(cache, terms, fetch).results == Lookups(Fetch(cache, terms, fetch).cache, terms)
    decreases |terms|
  {
    FetchAllStored(cache, terms, fetch);
    if |terms| > 0 {
      var n := |terms| - 1;
      var init := terms[..n];
      var p := Fetch(cache, init, fetch);
      var r := Fetch(cache, terms, fetch);
      AllFetchesSucceedPrefix(cache, terms, fetch);
      FetchAllAnswered(cache, init, fetch);
      if Upper(terms[n]) !in p.cache {
        assert r.asked[|p.asked|] == terms[n];
      }
      LookupsExtends(p.cache, r.cache, init);
      assert Lookups(r.cache, terms) == Lookups(r.cache, init) + [r.cache[Upper(terms[n])]];
    }
  }

  /** Repeating a request whose oracle calls all succeeded, against the
      cache it wrote, returns the same answers, calls the oracle zero
      times and writes back the same cache. */
  lemma FetchRepeatIsCached(cache: Cache, terms: seq<string>, fetch: Oracle)
    requires AllFetchesSucceed(Fetch(cache, terms, fetch), fetch)
    ensures Fetch(Fetch(cache, terms, fetch).cache, terms, fetch)
         == Run(Fetch(cache, terms, fetch).results, Fetch(cache, terms, fetch).cache, [])
  {
    var first := Fetch(cache, terms, fetch);
    FetchAllAnswered(cache, terms, fetch);
    FetchAllCached(first.cache, terms, fetch);
  }
}

=== FILE: fixed_lines.dfy ===
/** `generate_fixed_lines_sentence` of
    routes/generate_fixed_lines_sentence.py: the lines stored under the
    exact name, joined by newlines, or a visible marker when the name has
    no lines. The debug printing is not modelled. */
module FixedLines {
  import opened Ascii

  /** name -> lines */
  type LineData = map<string, seq<string>>

  function GenerateFixedLinesSentence(name: string, data: LineData): (r: string)
    ensures name !in data ==> r == "<No data for " + name + ">"
    ensures name in data && |data[name]| == 0 ==> r == ""
    ensures name in data && |data[name]| == 1 ==> r == data[name][0]
  {
    if name in data then Join(data[name], '\n')
    else "<No data for " + name + ">"
  }

  /** When the name has lines and none of them holds a newline, splitting
      the answer at its newlines gives back exactly the stored lines. */
  lemma LinesRecoverable(name: string, data: LineData)
    requires name in data && |data[name]| > 0
    requires forall i :: 0 <= i < |data[name]| ==> '\n' !in data[name][i]
    ensures Split(GenerateFixedLinesSentence(name, data), '\n') == data[name]
  {
    SplitJoin(data[name], '\n');
  }

  /** The answer depends on the entry under `name` alone: the lookup is
      exact, and no other key is consulted. */
  lemma OnlyNameConsulted(name: string, data1: LineData, data2: LineData)
    requires name in data1 <==> name in data2
    requires name in data1 ==> data1[name] == data2[name]
    ensures GenerateFixedLinesSentence(name, data1) == GenerateFixedLinesSentence(name, data2)
  {
  }

  function SumLengths(lines: seq<string>): nat
    decreases |lines|
  {
    if |lines| == 0 then 0 else |lines[0]| + SumLengths(lines[1..])
  }

  /** The joined answer holds the characters of the lines plus exactly one
      newline between each two neighbours. */
  lemma {:induction false} JoinLength(lines: seq<string>, sep: char)
    requires |lines| > 0
    ensures |Join(lines, sep)| == SumLengths(lines) + |lines| - 1
    decreases |lines|
  {
    if |lines| > 1 {
      JoinLength(lines[1..], sep);
    }
  }
}

=== FILE: grammar_sentence.dfy ===
/** `generate_grammar_sentence` of sentence_rules.py: the selected words
    placed in "The <adjective> <noun> <verb>s <adverb>." and passed through
    `str.capitalize()`. */
module GrammarSentence {
  import opened Ascii
  import opened GrammarWords

  /** The f-string of the source, before capitalisation. */
  function Shape(adj: string, noun: string, verb: string, adv: string): (s: string)
    ensures |s| == |adj| + |noun| + |verb| + |adv| + 9
    ensures IsPrefix("The ", s) && s[|s| - 1] == '.'
  {
    "The " + adj + " " + noun + " " + verb + "s " + adv + "."
  }

  function GenerateGrammarSentence(wordbank: Wordbank, letters: seq<string>, roll: nat -> nat): (s: string)
    ensures IsCapitalized(s)
    ensures |s| > 0 && s[0] == 'T' && s[|s| - 1] == '.'
    ensures
      var sel := Select(wordbank, letters, roll);
      EqualIgnoringCase(s, Shape(Chosen(sel, Adjectives), Chosen(sel, Nouns), Chosen(sel, Verbs), Chosen(sel, Adverbs)))
  {
    var sel := Select(wordbank, letters, roll);
    var raw := Shape(Chosen(sel, Adjectives), Chosen(sel, Nouns), Chosen(sel, Verbs), Chosen(sel, Adverbs));
    assert raw[0] == raw[..4][0] == 'T';
    CapitalizeEnds(raw);
    Capitalize(raw)
  }

  /** Every word placed in the shape can be found in it again, ignoring case. */
  lemma ShapeMentionsWords(adj: string, noun: string, verb: string, adv: string)
    ensures var lowered := Lower(Shape(adj, noun, verb, adv));
      && ContainsSub(lowered, Lower(adj)) && ContainsSub(lowered, Lower(noun))
      && ContainsSub(lowered, Lower(verb)) && ContainsSub(lowered, Lower(adv))
  {
    var s := Shape(adj, noun, verb, adv);
    assert ContainsSub(Lower(s), Lower(adj)) by {
      assert s == "The " + adj + (" " + noun + " " + verb + "s " + adv + ".");
      ContainsMiddleIgnoringCase("The ", adj, " " + noun + " " + verb + "s " + adv + ".");
    }
    assert ContainsSub(Lower(s), Lower(noun)) by {
      assert s == ("The " + adj + " ") + noun + (" " + verb + "s " + adv + ".");
      ContainsMiddleIgnoringCase("The " + adj + " ", noun, " " + verb + "s " + adv + ".");
    }
    assert ContainsSub(Lower(s), Lower(verb)) by {
      assert s == ("The " + adj + " " + noun + " ") + verb + ("s " + adv + ".");
      ContainsMiddleIgnoringCase("The " + adj + " " + noun + " ", verb, "s " + adv + ".");
    }
    assert ContainsSub(Lower(s), Lower(adv)) by {
      assert s == ("The " + adj + " " + noun + " " + verb + "s ") + adv + ".";
      ContainsMiddleIgnoringCase("The " + adj + " " + noun + " " + verb + "s ", adv, ".");
    }
  }

  /** Every selected word appears in the sentence, ignoring case. */
  lemma SentenceMentionsSelection(wordbank: Wordbank, letters: seq<string>, roll: nat -> nat, c: Category)
    ensures ContainsSub(Lower(GenerateGrammarSentence(wordbank, letters, roll)),
                        Lower(Chosen(Select(wordbank, letters, roll), c)))
  {
    var sel := Select(wordbank, letters, roll);
    ShapeMentionsWords(Chosen(sel, Adjectives), Chosen(sel, Nouns), Chosen(sel, Verbs), Chosen(sel, Adverbs));
  }

  /** With no letters every slot is empty. */
  lemma NoLettersSentence(wordbank: Wordbank, roll: nat -> nat)
    ensures GenerateGrammarSentence(wordbank, [], roll) == "The   s ."
  {
  }
}

=== FILE: grammar_words.dfy ===
/** The word selection shared by sentence_rules.py and
    sentence_rules_hinglish.py (the two files carry the same loop): the
    letter at position `i` fills the part of speech `i % 4` of Nouns,
    Verbs, Adjectives, Adverbs, with a random word the wordbank lists for
    that part of speech and the upper-cased letter, or with the letter
    itself when it lists none. A later letter overwrites an earlier one of
    the same part of speech. */
module GrammarWords {
  import opened Ascii
  import opened Choice

  datatype Category = Nouns | Verbs | Adjectives | Adverbs

  /** The wordbank's key for the category. */
  function Key(c: Category): string {
    match c
    case Nouns => "Nouns"
    case Verbs => "Verbs"
    case Adjectives => "Adjectives"
    case Adverbs => "Adverbs"
  }

  /** The category's position in `["Nouns", "Verbs", "Adjectives", "Adverbs"]`. */
  function Index(c: Category): (i: nat)
    ensures i < 4
  {
    match c
    case Nouns => 0
    case Verbs => 1
    case Adjectives => 2
    case Adverbs => 3
  }

  /** The category the letter at position `i` fills: the four categories
      in turn, starting again after Adverbs. */
  function CategoryAt(i: nat): (c: Category)
    ensures Index(c) == i % 4
    ensures i < 4 ==> Index(c) == i
  {
    [Nouns, Verbs, Adjectives, Adverbs][i % 4]
  }

  /** part of speech -> upper-case letter -> words */
  type Wordbank = map<string, map<string, seq<string>>>

  /** The words the wordbank lists for the category and the upper-cased
      letter; a missing category or a missing letter gives none. */
  function Candidates(wordbank: Wordbank, c: Category, letter: string): (words: seq<string>)
    ensures |words| > 0 ==> Key(c) in wordbank && Upper(letter) in wordbank[Key(c)]
    ensures Key(c) in wordbank && Upper(letter) in wordbank[Key(c)] ==> words == wordbank[Key(c)][Upper(letter)]
    ensures !(Key(c) in wordbank && Upper(letter) in wordbank[Key(c)]) ==> words == []
  {
    if Key(c) in wordbank && Upper(letter) in wordbank[Key(c)] then wordbank[Key(c)][Upper(letter)] else []
  }

  /** The word chosen for one letter, `r` being the random draw. */
  function WordFor(wordbank: Wordbank, c: Category, letter: string, r: nat): (w: string)
    ensures Key(c) in wordbank && Upper(letter) in wordbank[Key(c)] && |wordbank[Key(c)][Upper(letter)]| > 0 ==>
      w in wordbank[Key(c)][Upper(letter)]
    ensures !(Key(c) in wordbank && Upper(letter) in wordbank[Key(c)] && |wordbank[Key(c)][Upper(letter)]| > 0) ==>
      w == letter
  {
    var words := Candidates(wordbank, c, letter);
    if |words| > 0 then Pick(words, r) else letter
  }

  /** `selected_words` after the loop over `letters`; `roll(i)` is the
      random draw made for the letter at position `i`. */
  function Select(wordbank: Wordbank, letters: seq<string>, roll: nat -> nat): (selection: map<Category, string>)
    ensures forall c :: c in selection <==> Index(c) < |letters|
    decreases |letters|
  {
    if |letters| == 0 then map[]
    else
      var n := |letters| - 1;
      Select(wordbank, letters[..n], roll)[CategoryAt(n) := WordFor(wordbank, CategoryAt(n), letters[n], roll(n))]
  }

  /** The last position before `n` assigned to category `c`. */
  function LastIndex(n: nat, c: Category): (i: nat)
    requires Index(c) < n
    ensures i < n && CategoryAt(i) == c
    decreases n
  {
    if CategoryAt(n - 1) == c then n - 1 else LastIndex(n - 1, c)
  }

  /** No position after `LastIndex(n, c)` and before `n` falls on `c`. */
  lemma {:induction false} LastIndexIsLast(n: nat, c: Category)
    requires Index(c) < n
    ensures forall j :: LastIndex(n, c) < j < n ==> CategoryAt(j) != c
    decreases n
  {
    if CategoryAt(n - 1) != c {
      LastIndexIsLast(n - 1, c);
    }
  }

  /** Position `n` skipping category `c` leaves its last position before
      `n + 1` where it was before `n`. */
  lemma LastIndexSkip(n: nat, c: Category)
    requires Index(c) <= n && CategoryAt(n) != c
    ensures Index(c) < n && LastIndex(n + 1, c) == LastIndex(n, c)
  {
    if n < 4 {
      assert Index(CategoryAt(n)) == n;
    }
  }

  /** The last letter leaves the word of any other category as it was. */
  lemma SelectKeepsOthers(wordbank: Wordbank, letters: seq<string>, roll: nat -> nat, c: Category)
    requires Index(c) < |letters| - 1 && CategoryAt(|letters| - 1) != c
    ensures Select(wordbank, letters, roll)[c] == Select(wordbank, letters[..|letters| - 1], roll)[c]
  {
  }

  /** A category reached by the last letter holds that letter's word. */
  lemma SelectLastLetter(wordbank: Wordbank, letters: seq<string>, roll: nat -> nat, c: Category)
    requires |letters| > 0 && CategoryAt(|letters| - 1) == c
    ensures LastIndex(|letters|, c) == |letters| - 1
    ensures Select(wordbank, letters, roll)[c] == WordFor(wordbank, c, letters[|letters| - 1], roll(|letters| - 1))
  {
  }

  /** A category reached by some letter holds the word chosen for the
      last letter assigned to it. */
  lemma {:induction false} SelectLastWins(wordbank: Wordbank, letters: seq<string>, roll: nat -> nat, c: Category)
    ensures Index(c) < |letters| ==>
      Select(wordbank, letters, roll)[c]
        == WordFor(wordbank, c, letters[LastIndex(|letters|, c)], roll(LastIndex(|letters|, c)))
    decreases |letters|
  {
    if |letters| > 0 && Index(c) < |letters| {
      var n := |letters| - 1;
      if CategoryAt(n) == c {
        SelectLastLetter(wordbank, letters, roll, c);
      } else {
        LastIndexSkip(n, c);
        SelectKeepsOthers(wordbank, letters, roll, c);
        SelectLastWins(wordbank, letters[..n], roll, c);
        assert letters[..n][LastIndex(n, c)] == letters[LastIndex(n, c)];
      }
    }
  }

  /** Every selected word is a wordbank word for its category and the
      upper-cased letter, or, when there is none, the letter itself. */
  lemma SelectedWordsFromWordbank(wordbank: Wordbank, letters: seq<string>, roll: nat -> nat, c: Category)
    requires c in Select(wordbank, letters, roll)
    ensures exists i :: (0 <= i < |letters| && CategoryAt(i) == c &&
      (if |Candidates(wordbank, c, letters[i])| > 0
       then Select(wordbank, letters, roll)[c] in Candidates(wordbank, c, letters[i])
       else Select(wordbank, letters, roll)[c] == letters[i]))
  {
  }

  /** The word selected for the category, or the empty string when no
      letter reached it. */
  function Chosen(selection: map<Category, string>, c: Category): string {
    if c in selection then selection[c] else ""
  }
}

=== FILE: hinglish_sentence.dfy ===
/** `generate_grammar_sentence_hinglish` of sentence_rules_hinglish.py:
    the same word selection as the English builder, placed in
    "Woh <adjective> <noun> <verb> karta hai <adverb>" (no "s" after the
    verb, no closing period) and passed through `str.capitalize()`. */
module HinglishSentence {
  import opened Ascii
  import opened GrammarWords

  /** The f-string of the source, before capitalisation. */
  function Shape(adj: string, noun: string, verb: string, adv: string): (s: string)
    ensures |s| == |adj| + |noun| + |verb| + |adv| + 17
    ensures s[..4] == "Woh "
    ensures s[|s| - |adv|..] == adv
  {
    "Woh " + adj + " " + noun + " " + verb + " karta hai " + adv
  }

  function GenerateHinglishSentence(wordbank: Wordbank, letters: seq<string>, roll: nat -> nat): (s: string)
    ensures IsCapitalized(s)
    ensures |s| > 0 && s[0] == 'W'
    ensures
      var sel := Select(wordbank, letters, roll);
      EqualIgnoringCase(s, Shape(Chosen(sel, Adjectives), Chosen(sel, Nouns), Chosen(sel, Verbs), Chosen(sel, Adverbs)))
  {
    var sel := Select(wordbank, letters, roll);
    Capitalize(Shape(Chosen(sel, Adjectives), Chosen(sel, Nouns), Chosen(sel, Verbs), Chosen(sel, Adverbs)))
  }

  /** The sentence ends with the adverb: nothing is appended after it. */
  lemma SentenceEndsWithAdverb(wordbank: Wordbank, letters: seq<string>, roll: nat -> nat)
    ensures var s := GenerateHinglishSentence(wordbank, letters, roll);
      var adv := Lower(Chosen(Select(wordbank, letters, roll), Adverbs));
      |adv| <= |s| && Lower(s)[|s| - |adv|..] == adv
  {
  }

  /** With no letters every slot is empty. */
  lemma NoLettersSentence(wordbank: Wordbank, roll: nat -> nat)
    ensures GenerateHinglishSentence(wordbank, [], roll) == "Woh    karta hai "
  {
  }
}

=== FILE: route_search.dfy ===
/** `search_items` of routes/search.py: the items of a category file that
    contain the query, ignoring case. The query parameter is declared with
    `min_length=1`, so an empty query is rejected before the handler runs
    and the file is never read. */
module ItemSearch {
  import opened Wrappers
  import opened Ascii
  import opened Seqs

  datatype Response =
    | Found(category: string, query: string, results: seq<string>)
    | CategoryNotFound
    | QueryTooShort   // the request validation error for an empty query

  /** The query occurs somewhere in the item, ignoring case. */
  predicate ContainsIgnoringCase(item: string, query: string) {
    ContainsSub(Lower(item), Lower(query))
  }

  function SearchItems(file: Option<seq<string>>, category: string, query: string): (r: Response)
    ensures r.QueryTooShort? <==> |query| == 0
    ensures r.CategoryNotFound? <==> |query| > 0 && file.None?
    ensures r.Found? ==> r.category == category && r.query == query
    ensures r.Found? ==> forall x :: x in r.results ==> ContainsIgnoringCase(x, query)
    ensures r.Found? ==> forall x :: x in file.value && ContainsIgnoringCase(x, query) ==> x in r.results
    ensures r.Found? ==> forall x :: ContainsIgnoringCase(x, query) ==> multiset(r.results)[x] == multiset(file.value)[x]
    ensures r.Found? ==> IsSubseq(r.results, file.value)
  {
    if |query| == 0 then QueryTooShort
    else
      match file
      case None => CategoryNotFound
      case Some(data) => Found(category, query, Filter(data, item => ContainsIgnoringCase(item, query)))
  }

  /** An item matches exactly when the lower-cased query occurs at some
      position of the lower-cased item. */
  lemma MatchIsSubstring(item: string, query: string)
    ensures ContainsIgnoringCase(item, query) <==>
      exists i :: 0 <= i <= |item| && IsPrefix(Lower(query), Lower(item)[i..])
  {
    ContainsSubIff(Lower(item), Lower(query));
  }
}

=== FILE: route_template.dfy ===
/** `generate_sentence` of routes/generate_template_sentence.py: one
    random template, filled through the capitalised fields `{Article}`,
    `{Adjective}`, `{Noun}`, `{Verb}`, `{Adverb}` and `{Preposition}` with a
    random word from the lists `articles`, `adjectives`, `nouns`, `verbs`,
    `adverbs` and `prepositions`, every one of which must be present and
    non-empty. */
module RouteTemplate {
  import opened Wrappers
  import opened Choice
  import opened Templates

  /** list name -> words */
  type WordDict = map<string, seq<string>>

  /** The keyword argument through which this file passes the slot. */
  function FieldName(s: Slot): string {
    match s
    case Article => "Article"
    case Adjective => "Adjective"
    case Noun => "Noun"
    case Verb => "Verb"
    case Adverb => "Adverb"
    case Preposition => "Preposition"
  }

  const KnownFields: set<string> := {"Article", "Adjective", "Noun", "Verb", "Adverb", "Preposition"}

  /** Every list is present and non-empty. */
  predicate ValidWordDict(wordDict: WordDict) {
    forall s: Slot :: ListKey(s) in wordDict && |wordDict[ListKey(s)]| > 0
  }

  /** Where the slot's keyword argument stands in the `format` call; the
      arguments are evaluated in this order. */
  function Position(s: Slot): nat {
    match s
    case Article => 0
    case Adjective => 1
    case Noun => 2
    case Verb => 3
    case Adverb => 4
    case Preposition => 5
  }

  /** The slot's list is missing or empty, so drawing from it raises. */
  predicate BadList(wordDict: WordDict, s: Slot) {
    ListKey(s) !in wordDict || |wordDict[ListKey(s)]| == 0
  }

  /** What drawing from a bad list raises: `KeyError` with the list name
      when it is missing, `IndexError` when it is empty. */
  function ListError(wordDict: WordDict, s: Slot): PyError {
    if ListKey(s) !in wordDict then MissingKey(ListKey(s)) else EmptySequence
  }

  /** `random.choice(word_dict[<list name>])` for one slot. */
  function SlotWord(wordDict: WordDict, s: Slot, r: nat): (w: Result<string>)
    ensures w.Ok? <==> ListKey(s) in wordDict && |wordDict[ListKey(s)]| > 0
    ensures ListKey(s) !in wordDict ==> w == Err(MissingKey(ListKey(s)))
    ensures ListKey(s) in wordDict && |wordDict[ListKey(s)]| == 0 ==> w == Err(EmptySequence)
    ensures w.Ok? ==> w.value in wordDict[ListKey(s)]
  {
    if ListKey(s) !in wordDict then Err(MissingKey(ListKey(s)))
    else Choose(wordDict[ListKey(s)], r)
  }

  /** The six keyword arguments, evaluated in the order the source lists
      them; the first missing or empty list raises. */
  function Words(wordDict: WordDict, roll: Slot -> nat): (r: Result<map<string, string>>)
    ensures r.Ok? <==> ValidWordDict(wordDict)
    ensures r.Ok? ==> r.value.Keys == KnownFields
    ensures r.Ok? ==> forall s: Slot :: FieldName(s) in r.value && r.value[FieldName(s)] in wordDict[ListKey(s)]
    ensures r.Err? ==> exists s: Slot ::
      && BadList(wordDict, s) && r.error == ListError(wordDict, s)
      && forall s': Slot :: Position(s') < Position(s) ==> !BadList(wordDict, s')
  {
    assert forall s: Slot :: SlotWord(wordDict, s, roll(s)).Err? ==>
      BadList(wordDict, s) && SlotWord(wordDict, s, roll(s)).error == ListError(wordDict, s);
    var article :- SlotWord(wordDict, Article, roll(Article));
    var adjective :- SlotWord(wordDict, Adjective, roll(Adjective));
    var noun :- SlotWord(wordDict, Noun, roll(Noun));
    var verb :- SlotWord(wordDict, Verb, roll(Verb));
    var adverb :- SlotWord(wordDict, Adverb, roll(Adverb));
    var preposition :- SlotWord(wordDict, Preposition, roll(Preposition));
    Ok(map["Article" := article, "Adjective" := adjective, "Noun" := noun,
           "Verb" := verb, "Adverb" := adverb, "Preposition" := preposition])
  }

  /** `generate_sentence(word_dict, templates)`; `pick` is the draw of the
      template, `roll` the draws of the words. */
  function GenerateSentence(wordDict: WordDict, templates: seq<Template>, pick: nat, roll: Slot -> nat): (r: Result<string>)
    ensures |templates| == 0 ==> r == Err(EmptySequence)
    ensures |templates| > 0 ==>
      (r.Ok? <==> ValidWordDict(wordDict) && FieldsIn(Pick(templates, pick), KnownFields))
    ensures |templates| > 0 && !ValidWordDict(wordDict) ==> r == Err(Words(wordDict, roll).error)
    ensures |templates| > 0 && ValidWordDict(wordDict) && r.Err? ==> r.error.MissingKey? && r.error.key !in KnownFields
    ensures r.Ok? ==> exists t :: t in templates && Format(t, Words(wordDict, roll).value) == r
  {
    var template :- Choose(templates, pick);
    var words :- Words(wordDict, roll);
    Format(template, words)
  }

  /** An empty word dictionary fails on the first argument, `articles`. */
  lemma EmptyDictMissesArticles(templates: seq<Template>, pick: nat, roll: Slot -> nat)
    requires |templates| > 0
    ensures GenerateSentence(map[], templates, pick, roll) == Err(MissingKey("articles"))
  {
  }

  /** A template without placeholders comes back as written. */
  lemma NoFieldsUnchanged(wordDict: WordDict, templates: seq<Template>, pick: nat, roll: Slot -> nat)
    requires |templates| > 0 && ValidWordDict(wordDict)
    requires NoFields(Pick(templates, pick))
    ensures GenerateSentence(wordDict, templates, pick, roll) == Ok(Text(Pick(templates, pick)))
  {
    FormatNoFields(Pick(templates, pick), Words(wordDict, roll).value);
  }

  /** All occurrences of one slot in the chosen template receive the same
      word, taken from the slot's list. */
  lemma SameWordPerSlot(wordDict: WordDict, templates: seq<Template>, pick: nat, roll: Slot -> nat, s: Slot)
    requires GenerateSentence(wordDict, templates, pick, roll).Ok?
    ensures exists w :: (w in wordDict[ListKey(s)] &&
      EveryOccurrenceIs(Pick(templates, pick), Words(wordDict, roll).value, FieldName(s), w,
                        GenerateSentence(wordDict, templates, pick, roll).value))
  {
    var t := Pick(templates, pick);
    var env := Words(wordDict, roll).value;
    var w := env[FieldName(s)];
    forall i | 0 <= i < |t| && t[i] == Field(FieldName(s))
      ensures Format(t[..i], env).Ok? && Format(t[i + 1..], env).Ok?
      ensures GenerateSentence(wordDict, templates, pick, roll).value
        == Format(t[..i], env).value + w + Format(t[i + 1..], env).value
    {
      FormatSameWordPerField(t, env, i);
    }
    assert EveryOccurrenceIs(t, env, FieldName(s), w, GenerateSentence(wordDict, templates, pick, roll).value);
  }
}

=== FILE: search.dfy ===
/** `search_by_letter` of search.py: the items of a category file whose
    text starts with the given letter, ignoring case. The category file is
    `None` when it does not exist. */
module LetterSearch {
  import opened Wrappers
  import opened Ascii
  import opened Seqs

  datatype Response =
    | Found(letter: string, results: seq<string>)
    | CategoryNotFound

  /** The item begins with the letter, ignoring case. */
  predicate StartsWithIgnoringCase(item: string, letter: string) {
    IsPrefix(Lower(letter), Lower(item))
  }

  function SearchByLetter(file: Option<seq<string>>, letter: string): (r: Response)
    ensures file.None? <==> r.CategoryNotFound?
    ensures r.Found? ==> r.letter == letter
    ensures r.Found? ==> forall x :: x in r.results ==> StartsWithIgnoringCase(x, letter)
    ensures r.Found? ==> forall x :: x in file.value && StartsWithIgnoringCase(x, letter) ==> x in r.results
    ensures r.Found? ==> forall x :: StartsWithIgnoringCase(x, letter) ==> multiset(r.results)[x] == multiset(file.value)[x]
    ensures r.Found? ==> IsSubseq(r.results, file.value)
  {
    match file
    case None => CategoryNotFound
    case Some(data) => Found(letter, Filter(data, item => StartsWithIgnoringCase(item, letter)))
  }

  /** An empty letter matches every item. */
  lemma EmptyLetterKeepsAll(data: seq<string>)
    ensures SearchByLetter(Some(data), "") == Found("", data)
  {
    FilterAll(data, item => StartsWithIgnoringCase(item, ""));
  }
}

=== FILE: seqs.dfy ===
/** List comprehensions with a condition, `[x for x in xs if keep(x)]`,
    and the order-preserving sub-list relation they produce. */
module Seqs {

  /** `a` is obtained from `b` by deleting elements, keeping the order. */
  predicate IsSubseq<T(==)>(a: seq<T>, b: seq<T>)
    decreases |b|
  {
    if |a| == 0 then true
    else if |b| == 0 then false
    else (a[0] == b[0] && IsSubseq(a[1..], b[1..])) || IsSubseq(a, b[1..])
  }

  /** `[x for x in xs if keep(x)]`: exactly the kept elements, each as
      often as in `xs`, in their original order. */
  function Filter<T(==,!new)>(xs: seq<T>, keep: T -> bool): (r: seq<T>)
    ensures forall x :: x in r ==> x in xs && keep(x)
    ensures forall x :: x in xs && keep(x) ==> x in r
    ensures forall x :: multiset(r)[x] == if keep(x) then multiset(xs)[x] else 0
    ensures IsSubseq(r, xs)
    decreases |xs|
  {
    if |xs| == 0 then []
    else
      var rest := Filter(xs[1..], keep);
      assert xs == [xs[0]] + xs[1..];
      if keep(xs[0]) then
        assert ([xs[0]] + rest)[1..] == rest;
        [xs[0]] + rest
      else rest
  }

  /** Keeping everything returns the list unchanged. */
  lemma {:induction false} FilterAll<T(!new)>(xs: seq<T>, keep: T -> bool)
    requires forall x :: x in xs ==> keep(x)
    ensures Filter(xs, keep) == xs
    decreases |xs|
  {
    if |xs| > 0 {
      FilterAll(xs[1..], keep);
      assert [xs[0]] + xs[1..] == xs;
    }
  }
}

=== FILE: template_sentence.dfy ===
/** `generate_template_sentence` of generate_template_sentence.py: every
    template is filled with one random word per slot (a slot whose list is
    missing from the wordbank gets ""), then one filled sentence is chosen,
    preferring those that contain one of the requested letters. */
module TemplateSentence {
  import opened Wrappers
  import opened Ascii
  import opened Seqs
  import opened Choice
  import opened Templates

  /** list name -> words */
  type WordLists = map<string, seq<string>>

  /** The keyword argument through which this file passes the slot. */
  function FieldName(s: Slot): string {
    match s
    case Article => "article"
    case Adjective => "adjective"
    case Noun => "noun"
    case Verb => "verb"
    case Adverb => "adverb"
    case Preposition => "preposition"
  }

  /** The words the wordbank lists for the slot; a missing list counts as
      the single empty word. */
  function WordList(wordbank: WordLists, s: Slot): seq<string> {
    if ListKey(s) in wordbank then wordbank[ListKey(s)] else [""]
  }

  /** The keyword arguments every `format` call of this file passes. */
  const KnownFields: set<string> := {"article", "adjective", "noun", "verb", "adverb", "preposition"}

  /** No list the wordbank holds for a slot is empty. */
  predicate WordsAvailable(wordbank: WordLists) {
    forall s: Slot :: |WordList(wordbank, s)| > 0
  }

  /** The six keyword arguments of one `format` call; `roll(s)` is the
      random draw for slot `s`. A list that is present but empty makes
      `random.choice` raise. */
  function Words(wordbank: WordLists, roll: Slot -> nat): (r: Result<map<string, string>>)
    ensures r.Ok? <==> WordsAvailable(wordbank)
    ensures r.Err? ==> r.error == EmptySequence
    ensures r.Ok? ==> r.value.Keys == KnownFields
    ensures r.Ok? ==> forall s: Slot :: FieldName(s) in r.value && r.value[FieldName(s)] in WordList(wordbank, s)
    ensures r.Ok? ==> forall s: Slot :: ListKey(s) !in wordbank ==> r.value[FieldName(s)] == ""
    ensures r.Ok? ==> forall s: Slot :: ListKey(s) in wordbank ==> r.value[FieldName(s)] in wordbank[ListKey(s)]
  {
    var article :- Choose(WordList(wordbank, Article), roll(Article));
    var adjective :- Choose(WordList(wordbank, Adjective), roll(Adjective));
    var noun :- Choose(WordList(wordbank, Noun), roll(Noun));
    var verb :- Choose(WordList(wordbank, Verb), roll(Verb));
    var adverb :- Choose(WordList(wordbank, Adverb), roll(Adverb));
    var preposition :- Choose(WordList(wordbank, Preposition), roll(Preposition));
    Ok(map["article" := article, "adjective" := adjective, "noun" := noun,
           "verb" := verb, "adverb" := adverb, "preposition" := preposition])
  }

  /** The loop filling every template; `roll(j)` holds the draws made for
      template `j`. The first template that fails stops the loop. */
  function FillAll(wordbank: WordLists, templates: seq<Template>, roll: nat -> Slot -> nat): (r: Result<seq<string>>)
    ensures r.Ok? <==> (|templates| == 0 ||
      (WordsAvailable(wordbank) && forall j :: 0 <= j < |templates| ==> FieldsIn(templates[j], KnownFields)))
    ensures r.Err? && WordsAvailable(wordbank) ==> r.error.MissingKey? && r.error.key !in KnownFields
    ensures r.Err? && !WordsAvailable(wordbank) ==> r.error == EmptySequence
    ensures r.Ok? ==> |r.value| == |templates|
    ensures r.Ok? ==> forall j :: 0 <= j < |templates| ==>
      Format(templates[j], Words(wordbank, roll(j)).value) == Ok(r.value[j])
    decreases |templates|
  {
    if |templates| == 0 then Ok([])
    else
      var n := |templates| - 1;
      assert forall j :: 0 <= j < n ==> templates[..n][j] == templates[j];
      var init := FillAll(wordbank, templates[..n], roll);
      if init.Err? then init
      else
        var words := Words(wordbank, roll(n));
        if words.Err? then Err(words.error)
        else
          var sentence := Format(templates[n], words.value);
          if sentence.Err? then Err(sentence.error)
          else
            FillStep(wordbank, templates, roll, init.value, sentence.value);
            Ok(init.value + [sentence.value])
  }

  /** Appending the last template's sentence to the sentences of the others
      keeps each sentence the formatting of its own template. */
  lemma FillStep(wordbank: WordLists, templates: seq<Template>, roll: nat -> Slot -> nat, init: seq<string>, last: string)
    requires WordsAvailable(wordbank) && |templates| > 0 && |init| == |templates| - 1
    requires forall j :: 0 <= j < |init| ==>
      Format(templates[..|init|][j], Words(wordbank, roll(j)).value) == Ok(init[j])
    requires Format(templates[|init|], Words(wordbank, roll(|init|)).value) == Ok(last)
    ensures forall j :: 0 <= j < |templates| ==>
      Format(templates[j], Words(wordbank, roll(j)).value) == Ok((init + [last])[j])
  {
    forall j | 0 <= j < |templates|
      ensures Format(templates[j], Words(wordbank, roll(j)).value) == Ok((init + [last])[j])
    {
      if j < |init| {
        assert templates[..|init|][j] == templates[j];
      }
    }
  }

  /** Some requested letter occurs in the sentence, ignoring case; the
      letters are tried in order. */
  predicate MatchesAny(s: string, letters: seq<string>)
    ensures MatchesAny(s, letters) <==> exists i :: 0 <= i < |letters| && ContainsSub(Lower(s), Lower(letters[i]))
    decreases |letters|
  {
    |letters| > 0 && (ContainsSub(Lower(s), Lower(letters[0])) || MatchesAny(s, letters[1..]))
  }

  /** The final choice among the filled sentences; `pick` is the draw. */
  function ChooseSentence(filled: seq<string>, letters: seq<string>, pick: nat): (s: string)
    requires |filled| > 0
    ensures s in filled
    ensures |letters| > 0 && (exists i :: 0 <= i < |filled| && MatchesAny(filled[i], letters)) ==> MatchesAny(s, letters)
  {
    if |letters| > 0 then
      var filtered := Filter(filled, x => MatchesAny(x, letters));
      if |filtered| > 0 then Pick(filtered, pick)
      else
        assert forall i :: 0 <= i < |filled| ==> filled[i] in filled;
        Pick(filled, pick)
    else Pick(filled, pick)
  }

  /** `generate_template_sentence(wordbank, templates, letters)`;
      `letters=None` is the empty sequence. */
  function GenerateTemplateSentence(wordbank: WordLists, templates: seq<Template>, letters: seq<string>,
                                    roll: nat -> Slot -> nat, pick: nat): (r: Result<string>)
    ensures |templates| == 0 ==> r == Ok("No templates available.")
    ensures |templates| > 0 ==> (r.Ok? <==> FillAll(wordbank, templates, roll).Ok?)
    ensures |templates| > 0 && r.Err? ==> r.error == FillAll(wordbank, templates, roll).error
    ensures |templates| > 0 && r.Ok? ==> r.value in FillAll(wordbank, templates, roll).value
    ensures |templates| > 0 && r.Ok? && |letters| > 0 &&
      (exists j :: 0 <= j < |templates| && MatchesAny(FillAll(wordbank, templates, roll).value[j], letters))
      ==> MatchesAny(r.value, letters)
  {
    if |templates| == 0 then Ok("No templates available.")
    else
      var filled :- FillAll(wordbank, templates, roll);
      Ok(ChooseSentence(filled, letters, pick))
  }

  /** Every filled sentence that contains a requested letter can be the
      answer, and when none does (or no letters are given), every filled
      sentence can. */
  lemma EveryCandidateReachable(filled: seq<string>, letters: seq<string>, s: string)
    requires s in filled
    requires if |letters| > 0 && (exists i :: 0 <= i < |filled| && MatchesAny(filled[i], letters))
             then MatchesAny(s, letters) else true
    ensures exists pick: nat :: ChooseSentence(filled, letters, pick) == s
  {
    if |letters| > 0 {
      var filtered := Filter(filled, x => MatchesAny(x, letters));
      if |filtered| > 0 {
        assert filtered[0] in filtered;
        var k :| 0 <= k < |filled| && filled[k] == filtered[0];
        assert s in filtered;
        PickReachesAll(filtered, s);
        var pick: nat :| Pick(filtered, pick) == s;
        assert ChooseSentence(filled, letters, pick) == s;
      } else {
        PickReachesAll(filled, s);
        var pick: nat :| Pick(filled, pick) == s;
        assert ChooseSentence(filled, letters, pick) == s;
      }
    } else {
      PickReachesAll(filled, s);
      var pick: nat :| Pick(filled, pick) == s;
      assert ChooseSentence(filled, letters, pick) == s;
    }
  }

  /** Within one filled template, every occurrence of a placeholder
      receives the same word, taken from the slot's list. */
  lemma SameWordPerPlaceholder(wordbank: WordLists, templates: seq<Template>, roll: nat -> Slot -> nat, j: nat, s: Slot)
    requires FillAll(wordbank, templates, roll).Ok?
    requires j < |templates|
    ensures exists w :: (w in WordList(wordbank, s) &&
      EveryOccurrenceIs(templates[j], Words(wordbank, roll(j)).value, FieldName(s), w,
                        FillAll(wordbank, templates, roll).value[j]))
  {
    var t := templates[j];
    var env := Words(wordbank, roll(j)).value;
    var w := env[FieldName(s)];
    var filled := FillAll(wordbank, templates, roll).value[j];
    forall i | 0 <= i < |t| && t[i] == Field(FieldName(s))
      ensures Format(t[..i], env).Ok? && Format(t[i + 1..], env).Ok?
      ensures filled == Format(t[..i], env).value + w + Format(t[i + 1..], env).value
    {
      FormatSameWordPerField(t, env, i);
    }
    assert EveryOccurrenceIs(t, env, FieldName(s), w, filled);
  }
}

=== FILE: templates.dfy ===
/** `str.format` with keyword arguments, on templates made of literal
    text and `{name}` fields. A field whose name is not among the keyword
    arguments raises `KeyError`, the leftmost such field first; unused
    keyword arguments are ignored. */
module Templates {
  import opened Wrappers

  datatype Piece = Lit(text: string) | Field(name: string)

  type Template = seq<Piece>

  /** The template as written, each field as `{name}`. */
  function Text(t: Template): string
    decreases |t|
  {
    if |t| == 0 then ""
    else
      var head := match t[0] case Lit(s) => s case Field(n) => "{" + n + "}";
      head + Text(t[1..])
  }

  predicate NoFields(t: Template) {
    forall i :: 0 <= i < |t| ==> t[i].Lit?
  }

  /** Every field of `t` is named in `names`. */
  predicate FieldsIn(t: Template, names: set<string>) {
    forall i :: 0 <= i < |t| && t[i].Field? ==> t[i].name in names
  }

  /** Every field of `t` has a keyword argument in `env`. */
  predicate FieldsBound(t: Template, env: map<string, string>) {
    FieldsIn(t, env.Keys)
  }

  /** `t.format(**env)` */
  function Format(t: Template, env: map<string, string>): (r: Result<string>)
    ensures r.Ok? <==> FieldsBound(t, env)
    ensures r.Err? ==> exists i :: 0 <= i < |t| && t[i].Field? && t[i].name !in env
                              && r.error == MissingKey(t[i].name) && FieldsBound(t[..i], env)
    decreases |t|
  {
    if |t| == 0 then Ok("")
    else
      var rest := Format(t[1..], env);
      match t[0]
      case Lit(s) =>
        if rest.Err? then
          assert FieldsBound(t[..1], env);
          assert forall i :: 1 <= i <= |t| ==> t[..i] == t[..1] + t[1..][..i - 1];
          rest
        else Ok(s + rest.value)
      case Field(n) =>
        if n !in env then
          assert t[..0] == [];
          Err(MissingKey(n))
        else if rest.Err? then
          assert forall i :: 1 <= i <= |t| ==> t[..i] == t[..1] + t[1..][..i - 1];
          rest
        else Ok(env[n] + rest.value)
  }

  /** Formatting a concatenation formats each half, the left half's
      error first. */
  lemma {:induction false} FormatAppend(t1: Template, t2: Template, env: map<string, string>)
    ensures Format(t1 + t2, env) ==
      if Format(t1, env).Err? then Format(t1, env)
      else if Format(t2, env).Err? then Format(t2, env)
      else Ok(Format(t1, env).value + Format(t2, env).value)
    decreases |t1|
  {
    if |t1| > 0 {
      assert (t1 + t2)[0] == t1[0];
      assert (t1 + t2)[1..] == t1[1..] + t2;
      FormatAppend(t1[1..], t2, env);
      var r1, r2 := Format(t1[1..], env), Format(t2, env);
      if r1.Ok? && r2.Ok? {
        var head := match t1[0] case Lit(x) => x case Field(n) => if n in env then env[n] else "";
        assert head + (r1.value + r2.value) == (head + r1.value) + r2.value;
      }
    } else {
      assert t1 + t2 == t2;
      if Format(t2, env).Ok? {
        assert "" + Format(t2, env).value == Format(t2, env).value;
      }
    }
  }

  /** In `result`, every occurrence of field `name` in `t` stands for `w`:
      what precedes and follows it is the formatting of the rest of `t`. */
  predicate EveryOccurrenceIs(t: Template, env: map<string, string>, name: string, w: string, result: string) {
    forall i :: 0 <= i < |t| && t[i] == Field(name) ==>
      && Format(t[..i], env).Ok? && Format(t[i + 1..], env).Ok?
      && result == Format(t[..i], env).value + w + Format(t[i + 1..], env).value
  }

  /** Every occurrence of a field receives the same word: the one its
      keyword argument carries. */
  lemma FormatSameWordPerField(t: Template, env: map<string, string>, i: nat)
    requires Format(t, env).Ok?
    requires i < |t| && t[i].Field?
    ensures t[i].name in env
    ensures Format(t[..i], env).Ok? && Format(t[i + 1..], env).Ok?
    ensures Format(t, env).value == Format(t[..i], env).value + env[t[i].name] + Format(t[i + 1..], env).value
  {
    assert t == t[..i] + ([t[i]] + t[i + 1..]);
    FormatAppend(t[..i], [t[i]] + t[i + 1..], env);
    FormatAppend([t[i]], t[i + 1..], env);
    assert [t[i]][1..] == [];
  }

  /** A template without fields formats to its own text. */
  lemma {:induction false} FormatNoFields(t: Template, env: map<string, string>)
    requires NoFields(t)
    ensures Format(t, env) == Ok(Text(t))
    decreases |t|
  {
    if |t| > 0 {
      FormatNoFields(t[1..], env);
    }
  }

  /** Filling every field with its own `{name}` marker gives back the
      template's text: formatting replaces each field and nothing else. */
  lemma {:induction false} FormatWithOwnMarkers(t: Template, env: map<string, string>)
    requires forall i :: 0 <= i < |t| && t[i].Field? ==> t[i].name in env && env[t[i].name] == "{" + t[i].name + "}"
    ensures Format(t, env) == Ok(Text(t))
    decreases |t|
  {
    if |t| > 0 {
      FormatWithOwnMarkers(t[1..], env);
    }
  }

  /** The word slots of the template files, each drawn from the wordbank
      list of the same name. */
  datatype Slot = Article | Adjective | Noun | Verb | Adverb | Preposition

  /** The wordbank key whose list supplies the slot. */
  function ListKey(s: Slot): string {
    match s
    case Article => "articles"
    case Adjective => "adjectives"
    case Noun => "nouns"
    case Verb => "verbs"
    case Adverb => "adverbs"
    case Preposition => "prepositions"
  }
}

=== FILE: wrappers.dfy ===
/** Failure-carrying datatypes shared by the whole model.

    Python signals the error cases of the modelled code with exceptions;
    here they are values. Only the two exceptions the core can raise are
    represented: `IndexError` from `random.choice` on an empty list and
    `KeyError` from a dictionary lookup or a `str.format` field that has no
    matching keyword argument. */
module Wrappers {

  datatype Option<+T> = None | Some(value: T)

  /** The Python exception a modelled call would raise. */
  datatype PyError =
    | EmptySequence            // IndexError: Cannot choose from an empty sequence
    | MissingKey(key: string)  // KeyError: key

  datatype Result<+T> = Ok(value: T) | Err(error: PyError) {

    predicate IsFailure() {
      Err?
    }

    function PropagateFailure<U>(): Result<U>
      requires Err?
    {
      Err(error)
    }

    function Extract(): T
      requires Ok?
    {
      value
    }
  }
}
